=== FILE: README.md ===
# Frame animation on a surface view — a Dafny model

This project models the core of an Android frame-animation view: `FrameSurfaceView`
decodes an ordered list of frame resources into two reusable bitmaps and draws
them at a fixed cadence on a surface, driven by the periodic draw task of its base
class `BaseSurfaceView`. Two bounded queues of capacity `BUFFER_SIZE = 2` pass the
bitmaps between the draw thread (decoded → draw → drawn) and the decode thread
(drawn → decode into the same bitmap → decoded).

The model is a sequential state machine. One immutable `State` record joins the
fields of both classes: the frame list, `frameIndex` (-1 means INITIAL), the repeat
count and repeats done, the decode task and its cursor, the two queues as sequences
of bitmap identities, the frame last decoded into each bitmap (`pixels`), the bitmap
the shared decode options reuse (`reuse`, the options' `inBitmap`), the frame index a
decode run has read and the bitmap it holds, the alive flag, and for each thread
whether its handler is non-null and how many runs are queued on it. Each thread
action is one atomic step. A run of the decode task is three steps: it starts and
reads the task's cursor, then blocks taking a drawn bitmap, then blocks putting the
decoded bitmap. A blocking take or put is an enabling precondition of its step.
Exceptions that escape a thread are a `thrown` outcome of the step.

Files:
- `common.dfy` — `Option` and the exceptions (`Fault`).
- `measure.dfy` — packed measure specifications and the `onMeasure` sizing rule.
- `decode_task.dfy` — the self-reposting decode runnable.
- `repeat.dfy` — the repeat count clamp and the decision taken when a run completes.
- `frame_view.dfy` — the state and every step of the view.
- `pipeline.dfy` — actions, their interleavings, and bitmap conservation.
- `scenarios.dfy` — properties of call sequences.

The code behaves as follows, which a reader may not expect:
- Presentation is not in source order. Configuring preloads frames 0 and 1 and
  creates the decode task at cursor 2, but `start` rewinds the cursor to 0, so the
  first run shows frames 0, 1, 0, 1, 2, … (`Scenarios.FirstRunRepeatsPreload`).
- A decode run reads its index when it starts, before it blocks on the drawn
  queue. A restart while such a run waits does not stop it from decoding the frame
  it read, and its cursor increment then turns the rewound 0 into 1, so frame 0 is
  skipped (`Scenarios.RestartDuringRunSkipsFrameZero`).
- The decode cursor does not wrap and continue: after the last frame the task sets
  its cursor to 0 and stops reposting until the next `start`.
- The preload decodes through the same options as the decode runs, whose
  `inBitmap` the first decode run sets and nothing clears. Configuring the view
  again after a decode run therefore asks the codec to decode both preloaded
  frames into that one bitmap. If the codec accepts it, that bitmap sits in the
  decoded queue twice, holding frame 1 (`Pipeline.ReconfigureAliases`). No
  recycling stands in the way when the queues emptied because bitmaps were lost,
  by a throwing take or bitmap draw, rather than by `destroy`. After `destroy` the
  reused bitmap has been recycled, and Android's codec rejects a recycled
  `inBitmap` before decoding, so the first preload decode throws instead.
- Destroying the surface empties both queues but keeps the view started. When the
  surface is created again the draw loop resumes, but unless the decode thread
  still holds a bitmap no bitmap circulates, so no frame is shown until the view
  is configured again
  (`Scenarios.RecreatedSurfaceShowsNothing`).
- The repeat count defaults to 0 (the field's default), so an unconfigured view
  plays once and stops.
- A presentation error is not always harmless: an exception from the bitmap draw,
  after the take, loses that bitmap (`Pipeline.BlitFailureLosesBuffer`).
- Configuring with a one-frame list preloads frame 0 and then fails reading frame 1.

## Model

| member | source | states |
|---|---|---|
| `FrameView.Init` | app/src/main/java/com/example/frame/FrameSurfaceView.java:25-69 | a new view is idle (no bitmap, no decode run queued or started), not started (the INITIAL index set on init), without surface, draw thread or bitmap to reuse, with repeat count 0 (the field default) and the base class's frame duration of 200 |
| `FrameView.DecodeAndCache` | app/src/main/java/com/example/frame/FrameSurfaceView.java:246-256 | one preload decode writes the frame into the reused bitmap when the options hold one and into a newly allocated one otherwise, appends that bitmap to the decoded queue, and leaves the frame of every other bitmap as it was |
| `FrameView.SetDrawableIds` | app/src/main/java/com/example/frame/FrameSurfaceView.java:202-229 | a null or empty list changes nothing; a list of two or more frames appends two new bitmaps holding frames 0 and 1 to the decoded queue, or the reused bitmap twice holding frame 1, and creates the decode task at cursor 2; a one-frame list appends frame 0 and throws an index error before creating the task; no bitmap that was not appended changes its frame, and nothing else changes |
| `Repeat.ClampRepeatTimes` | app/src/main/java/com/example/frame/FrameSurfaceView.java:232-234 | the stored count is never below INFINITE, is INFINITE exactly for requests at or below -1, and equals every request at or above -1 |
| `FrameView.SetRepeatTimes` | app/src/main/java/com/example/frame/FrameSurfaceView.java:232-234 | only the repeat count changes, to the clamped request |
| `FrameView.SetFrameDuration` | app/src/main/java/com/example/frame/BaseSurfaceView.java:46-48 | only the frame duration changes, to the given value |
| `Scenarios.DurationIsLastSet` | app/src/main/java/com/example/frame/BaseSurfaceView.java:16-48 | after any sequence of actions the frame duration is the last one set, and the one in force before the sequence when none was set; no other action changes it |
| `FrameView.IsStart` | app/src/main/java/com/example/frame/FrameSurfaceView.java:116-119 | the view counts as started exactly when its index is not INITIAL |
| `FrameView.IsFinish` | app/src/main/java/com/example/frame/FrameSurfaceView.java:121-124 | the animation is finished exactly when the frame index has reached the list's size |
| `FrameView.Reset` | app/src/main/java/com/example/frame/FrameSurfaceView.java:126-128 | after a reset the view is not started, and only the index changed |
| `FrameView.Start` | app/src/main/java/com/example/frame/FrameSurfaceView.java:131-146 | the index moves from INITIAL to 0 and any other index is kept; the decode handler exists; the decode task, if any, is rewound to cursor 0 and queued once more; nothing else changes |
| `Scenarios.StartKeepsIndex` | app/src/main/java/com/example/frame/FrameSurfaceView.java:116-146 | a second start leaves the index where the first put it; after a reset the view is not started, and starting it again begins at frame 0 |
| `FrameView.StopDrawThread` | app/src/main/java/com/example/frame/BaseSurfaceView.java:75-84 | the draw handler is null and no tick stays queued; nothing else changes |
| `FrameView.Offer` | app/src/main/java/com/example/frame/FrameSurfaceView.java:105 | the non-blocking offer appends the bitmap when the queue has room and otherwise leaves the queue as it was, so the queue never grows past its capacity |
| `FrameView.OnFrameDraw` | app/src/main/java/com/example/frame/FrameSurfaceView.java:87-108 | when not started, or when clearing the canvas throws, nothing changes; when started and drawing succeeds, the head of the decoded queue is shown with the frame last decoded into it and offered to the drawn queue (dropped when that queue is full), and the index grows by one either way; when the bitmap draw throws, the head is taken and nothing else happens |
| `Repeat.OnFinish` | app/src/main/java/com/example/frame/FrameSurfaceView.java:150-159 | a completed run stops exactly when the repeat count is finite and already reached; with INFINITE it restarts without counting, otherwise each restart counts one repeat and the count never passes the repeat times |
| `FrameView.OnFrameDrawFinish` | app/src/main/java/com/example/frame/FrameSurfaceView.java:148-161 | with no frame list it throws; before the end nothing changes; at the end the index is reset and then, as the repeat policy decides, the animation restarts at frame 0 with the new repeat count or the draw thread is stopped with the index left INITIAL; no bitmap moves |
| `Repeat.FiniteRepeats` | app/src/main/java/com/example/frame/FrameSurfaceView.java:148-161 | with a finite repeat count R and c repeats done, the next k completed runs all restart if and only if k <= R - c, so R + 1 runs complete from c = 0 and then the animation stops |
| `Repeat.InfiniteRepeats` | app/src/main/java/com/example/frame/FrameSurfaceView.java:152-153 | with INFINITE, every completed run restarts, however many complete |
| `FrameView.DrawTick` | app/src/main/java/com/example/frame/BaseSurfaceView.java:103-126 | a tick on a dead surface makes no call, shows nothing and queues no tick; a live tick locks, draws, unlocks and calls the finish hook in that order whatever the drawing does, and reschedules itself exactly when nothing escaped and the draw handler is still non-null, in which case the tick it consumed is replaced by the one it queues; an exception escapes only from the finish hook of an unconfigured view |
| `FrameView.DecodeBegin` | app/src/main/java/com/example/frame/FrameSurfaceView.java:270-272 | a decode run leaves the handler's queue and records the task's cursor as the index it will decode; nothing else changes |
| `FrameView.DecodeTake` | app/src/main/java/com/example/frame/FrameSurfaceView.java:236-250 | the head of the drawn queue is taken, becomes the bitmap the decode options reuse, and receives the frame at the index the run read when it started, no other bitmap changing its frame; reading outside the frame list throws, ends the run, loses the taken bitmap and decodes nothing |
| `DecodeTask.Advance` | app/src/main/java/com/example/frame/FrameSurfaceView.java:273-278 | after a run the task reposts exactly when a next frame exists, and its next run then reads that frame; otherwise its cursor returns to 0 and it stays quiet |
| `FrameView.DecodePut` | app/src/main/java/com/example/frame/FrameSurfaceView.java:250-256 | the held bitmap goes to the tail of the decoded queue, the run ends, the task's current cursor advances, and the task is queued again while frames remain; reposting through a nulled handler throws; nothing else changes |
| `DecodeTask.Posting` | app/src/main/java/com/example/frame/FrameSurfaceView.java:258-280 | one posting of the decode task decodes the indices cursor, cursor + 1, …, size - 1, each once and in increasing order, and leaves the cursor at 0; a cursor past the end fails on its first run |
| `FrameView.Destroy` | app/src/main/java/com/example/frame/FrameSurfaceView.java:169-199 | both queues are empty, the decode handler is null and no decode run stays queued; a run under way, the bitmap it holds and the bitmap the decode options reuse are untouched |
| `FrameView.SurfaceCreated` | app/src/main/java/com/example/frame/BaseSurfaceView.java:50-73 | the surface is alive, the draw handler exists and one more tick is queued; nothing else changes |
| `FrameView.SurfaceDestroyed` | app/src/main/java/com/example/frame/FrameSurfaceView.java:163-167 | the draw loop is stopped, the surface is not alive, both queues are empty and the decode thread is gone; everything else, the frame index included, is as it was, so with no decode run under way the view is idle |
| `Measure.GetMode` | app/src/main/java/com/example/frame/BaseSurfaceView.java:89 | the mode of a specification is its top two bits, a value below 4 |
| `Measure.GetSize` | app/src/main/java/com/example/frame/BaseSurfaceView.java:90 | the size of a specification is its low thirty bits |
| `Measure.MakeSpec` | app/src/main/java/com/example/frame/BaseSurfaceView.java:89-92 | unpacking a packed measure specification gives back its mode and its size |
| `Measure.UnpackRepack` | app/src/main/java/com/example/frame/BaseSurfaceView.java:89-92 | a specification whose mode field is a known mode is the packing of its size with that mode |
| `Measure.OnMeasure` | app/src/main/java/com/example/frame/BaseSurfaceView.java:86-96 | in each direction the measured dimension is the view's default when the mode is AT_MOST and the requested size otherwise |
| `Measure.MeasuredDimensions` | app/src/main/java/com/example/frame/BaseSurfaceView.java:86-96 | measuring against packed specifications yields the default for AT_MOST and the requested size for EXACTLY and UNSPECIFIED |
| `Pipeline.PreloadEstablishes` | app/src/main/java/com/example/frame/FrameSurfaceView.java:225-229 | configuring an idle view that no decode run has touched, with at least two frames, puts exactly two distinct new bitmaps into circulation and establishes the run invariant |
| `Pipeline.ReconfigureAliases` | app/src/main/java/com/example/frame/FrameSurfaceView.java:236-256 | with a codec that decodes into the reused bitmap and returns it, configuring an idle view after a decode run puts that bitmap twice into the decoded queue, both entries showing frame 1, and the run invariant does not hold |
| `Pipeline.PutAndOfferFindRoom` | app/src/main/java/com/example/frame/FrameSurfaceView.java:96-108 | during a run the decode thread's put always finds room, a drawing tick's non-blocking offer always finds room and so never drops its bitmap, and when both queues are empty the decode thread holds a bitmap |
| `Pipeline.DrawnTickMovesHead` | app/src/main/java/com/example/frame/FrameSurfaceView.java:96-108 | a drawing tick during a run moves the head of the decoded queue to the drawn queue, keeping the invariant and the same bitmaps |
| `Pipeline.DrawnTickShows` | app/src/main/java/com/example/frame/FrameSurfaceView.java:96-108 | a drawing tick during a run shows the frame last decoded into the head of the decoded queue |
| `Pipeline.QuietTickKeeps` | app/src/main/java/com/example/frame/FrameSurfaceView.java:87-94 | a tick that does not draw keeps the invariant and moves no bitmap |
| `Pipeline.DrawPreserves` | app/src/main/java/com/example/frame/FrameSurfaceView.java:96-108 | a draw tick during a run throws nothing, keeps the invariant and keeps the same bitmaps circulating |
| `Pipeline.BeginPreserves` | app/src/main/java/com/example/frame/FrameSurfaceView.java:270-272 | a decode run started during a run reads an index inside the frame list, keeps the invariant and moves no bitmap |
| `Pipeline.TakePreserves` | app/src/main/java/com/example/frame/FrameSurfaceView.java:237-244 | a decode take during a run reads inside the frame list, keeps the invariant and keeps the same bitmaps circulating |
| `Pipeline.PutPreserves` | app/src/main/java/com/example/frame/FrameSurfaceView.java:246-256 | a decode put during a run throws nothing, keeps the invariant and keeps the same bitmaps circulating |
| `Pipeline.StepPreserves` | app/src/main/java/com/example/frame/FrameSurfaceView.java:41-42 | every enabled action of a run throws nothing, keeps the invariant and keeps the same bitmaps circulating |
| `Pipeline.Conservation` | app/src/main/java/com/example/frame/FrameSurfaceView.java:37-42 | over any interleaving of run actions nothing throws, and wherever the sequence ends the invariant holds with exactly the same two distinct bitmaps in the queues and the decode thread's hand |
| `Pipeline.BlitFailureLosesBuffer` | app/src/main/java/com/example/frame/FrameSurfaceView.java:96-108 | when the bitmap draw throws after the take, the taken bitmap leaves circulation and one bitmap fewer remains |
| `Pipeline.HaltedStaysHalted` | app/src/main/java/com/example/frame/BaseSurfaceView.java:75-84 | once the draw handler is null with no tick queued, no sequence of actions without a new surface runs a tick or brings the handler back |
| `Scenarios.StopEndsDrawLoop` | app/src/main/java/com/example/frame/BaseSurfaceView.java:117-123 | a live tick whose finish hook stops the animation does not reschedule, leaves no tick queued and the index INITIAL, and no tick runs again until the surface is created anew |
| `Scenarios.FirstRunRepeatsPreload` | app/src/main/java/com/example/frame/FrameSurfaceView.java:131-146 | after configuring and starting, the decoded queue holds frames 0 and 1 and the decode task is rewound from cursor 2 to 0, so the first run shows frames 0, 1 and then 0 again; its first decode sets that bitmap for reuse |
| `Scenarios.RestartDuringRunSkipsFrameZero` | app/src/main/java/com/example/frame/FrameSurfaceView.java:142-145 | a restart while a decode run is under way lets that run decode the frame it read, then leaves the cursor at 1 with the task queued, so decoding resumes at frame 1 |
| `Scenarios.DestroyThenReconfigure` | app/src/main/java/com/example/frame/FrameSurfaceView.java:169-211 | destroying the surface with no decode run under way leaves the view idle; configuring it again establishes the run invariant when no decode run ever set a bitmap for reuse, and otherwise, with a codec that accepts the reused bitmap, circulates one bitmap twice and breaks it |
| `Scenarios.EmptyTickShowsNothing` | app/src/main/java/com/example/frame/FrameSurfaceView.java:87-108 | without a bitmap in circulation a tick shows nothing and brings no bitmap back |
| `Scenarios.NoBitmapStays` | app/src/main/java/com/example/frame/FrameSurfaceView.java:163-229 | without a bitmap in circulation, every sequence of actions that does not configure the view leaves it without a bitmap |
| `Scenarios.RecreatedSurfaceShowsNothing` | app/src/main/java/com/example/frame/FrameSurfaceView.java:163-199 | destroying and recreating the surface while the decode thread holds no bitmap (idle, or blocked in its take) leaves a started view started, with a tick queued but no bitmap, so it can never take a frame to draw until it is configured again |
| `Scenarios.TickKeepsDuration` | app/src/main/java/com/example/frame/BaseSurfaceView.java:103-126 | a tick never changes the frame duration |

## Left out

- Canvas, Paint and the clearing transfer mode, `lockCanvas`, `unlockCanvasAndPost` and `requestLayout`: UI plumbing. Locking, drawing and unlocking are opaque; what drawing does is the `CanvasEffect` parameter of a tick (succeeds, throws while clearing, throws while drawing the bitmap).
- Bitmap decoding and the bounds probe of the first frame: foreign codec calls. Decoding records the frame id as the bitmap's pixels; the codec is assumed to accept every reused bitmap. The default width and height are parameters of `Measure.OnMeasure`.
- Recycling: `destroy` recycles the queued bitmaps, and the model does not track which bitmaps are recycled. Android's codec refuses to decode into a recycled `inBitmap` and throws. The model does not have that failure: after `destroy` it decodes into the reused bitmap as into any other. So `Pipeline.ReconfigureAliases` and `Scenarios.DestroyThenReconfigure` describe the code only when the reused bitmap was not recycled, for instance when it was lost by a throwing take.
- Real threads, loopers and `postDelayed` timing: a handler's queue is a count of queued runs, quitting a thread drops them, and the frame duration is stored but no time passes. A tick whose take would block is simply not enabled; a tick blocked mid-way while other actions run is not modelled.
- `InterruptedException` paths: takes and puts are never interrupted.
- A second `surfaceCreated` without `surfaceDestroyed` starts a second draw thread in the code; the model merges its queued ticks into the one count.
- Decode tasks replaced by reconfiguration: the code keeps each runnable's own index and size, so a run of an old task, queued or already under way, keeps reading and reposting with the old size against the new list. The model has one task: such a run advances and reposts the current task instead. `Pipeline.Inv` is only established from an idle view, where no run is queued or under way.
- The preload's two blocking puts are one step in the model, enabled only when the decoded queue has room for both; the code may block between them.
- Java `int` overflow of the frame index and repeat counter: both stay small (the index never exceeds the list size by more than one), so they are unbounded integers.
- Strict source-order presentation and a decode-failure retry policy: the code provides neither (see `Scenarios.FirstRunRepeatsPreload`).
- An exception escaping a thread reaches Android's default uncaught-exception handler, which kills the whole process. The model returns it as the step's outcome, and `Pipeline.Execute` stops there: nothing happens after it.
- One decode thread: `destroy` quits the decode thread, but a run already under way on it finishes, and a later `start` creates a new thread. In the code the two threads can then run the decode task at the same time on the shared runnable. The model has one slot for a run under way, so a run that outlives `destroy` holds back the runs of the new thread until its put is done. The order of frames the two threads would decode together is not modelled.
- `MainActivity`: host wiring only.

=== FILE: common.dfy ===
/** Shared vocabulary of the frame pipeline: optional values and the
    exceptions that can escape an action on one of its threads. */
module Common {

  /** A value that may be absent; stands in for a Java reference that may be null. */
  datatype Option<+T> = None | Some(value: T)

  /** An exception that escapes the action raising it. */
  datatype Fault =
    | NullPointer        // a call through a null reference
    | IndexOutOfBounds   // a frame list read past its end
}

=== FILE: decode_task.dfy ===
/** The decode task: a runnable on the decode thread that decodes the frame at
    its cursor, advances the cursor and posts itself again while frames
    remain; after the last frame it wraps the cursor to 0 and stops. */
module DecodeTask {

  /** `cursor` is the index of the frame the next run decodes; `size` is the
      number of frames. */
  datatype Decoder = Decoder(cursor: nat, size: nat)

  /** The task after one run: its advanced cursor, and whether it posted
      itself again. */
  datatype Advanced = Advanced(next: Decoder, reposted: bool)

  /** The bookkeeping that ends a run, once the frame at `d.cursor` is
      decoded: the task reposts exactly when a next frame exists, and then
      its next run reads that frame; otherwise it rewinds and stays quiet. */
  function Advance(d: Decoder): (r: Advanced)
    ensures r.next.size == d.size
    ensures r.reposted <==> d.cursor + 1 < d.size
    ensures r.reposted ==> r.next.cursor == d.cursor + 1 && r.next.cursor < r.next.size
    ensures !r.reposted ==> r.next.cursor == 0
  {
    if d.cursor + 1 < d.size then Advanced(Decoder(d.cursor + 1, d.size), true)
    else Advanced(Decoder(0, d.size), false)
  }

  /** Runs one posting of the task to its end: the first run, and every run it
      reposts. `order` lists the frame indices decoded, in decode order, and
      `last` is the task afterwards. A cursor past the end makes the first run
      read past the frame list, which `fault` reports. */
  method Posting(d: Decoder) returns (order: seq<nat>, last: Decoder, fault: bool)
    ensures fault <==> d.cursor >= d.size
    ensures fault ==> order == [] && last == d
    ensures !fault ==> |order| == d.size - d.cursor
    ensures !fault ==> forall k :: 0 <= k < |order| ==> order[k] == d.cursor + k
    ensures !fault ==> last == Decoder(0, d.size)
  {
    if d.cursor >= d.size {
      return [], d, true;
    }
    order, last, fault := [], d, false;
    var posted := true;
    while posted
      invariant last.size == d.size
      invariant posted ==> d.cursor <= last.cursor < d.size && |order| == last.cursor - d.cursor
      invariant !posted ==> last.cursor == 0 && |order| == d.size - d.cursor
      invariant forall k :: 0 <= k < |order| ==> order[k] == d.cursor + k
      decreases d.size - |order|
    {
      order := order + [last.cursor];
      var a := Advance(last);
      last, posted := a.next, a.reposted;
    }
  }
}

=== FILE: frame_view.dfy ===
/** The frame-animation view as a sequential state machine. The state joins
    the fields of the frame view and of the base surface view it extends;
    every thread action is one atomic step, except that one run of the
    decode task is split into its start (which reads the task's cursor),
    its blocking take and its blocking put. A blocking take or put is a
    step that is only enabled when its queue is non-empty or non-full. */
module FrameView {
  import opened Common
  import opened DecodeTask
  import opened Repeat

  /** Capacity of each bitmap queue, and the number of frames preloaded. */
  const BUFFER_SIZE: nat := 2
  const INITIAL_INDEX: int := -1
  const START_INDEX: int := 0
  /** The default delay between two draw ticks. */
  const FRAME_DURATION: int := 200

  /** The identity of a bitmap. */
  type BufferId = nat

  datatype State = State(
    ids: Option<seq<int>>,     // the frame list; None until configured
    frameIndex: int,           // INITIAL_INDEX while not started
    repeatTimes: int,
    repeatedCount: int,
    decoder: Option<Decoder>,  // the decode task; None until configured
    decoded: seq<BufferId>,    // decoded bitmaps waiting to be drawn, head first
    drawn: seq<BufferId>,      // drawn bitmaps waiting to be decoded into
    pixels: map<BufferId, int>, // the frame id last decoded into each bitmap
    reuse: Option<BufferId>,   // the bitmap the shared decode options reuse
    running: Option<nat>,      // the frame index the current decode run read
    holding: Option<BufferId>, // the bitmap the decode thread holds mid-run
    decodeHandler: bool,       // the decode thread's handler is non-null
    decodePosts: nat,          // runs of the decode task queued on that handler
    alive: bool,               // the surface exists
    drawHandler: bool,         // the draw thread's handler is non-null
    drawPosts: nat,            // draw ticks queued on that handler
    duration: int,             // the delay between two draw ticks
    nextTag: BufferId)         // identity of the next bitmap the codec allocates

  /** The result of an action: the new state and the exception, if any, that
      escaped it. */
  datatype Step = Step(state: State, thrown: Option<Fault>)

  /** No bitmap circulates and the decode thread is neither running nor
      has a run queued. */
  predicate Idle(s: State) {
    s.decoded == [] && s.drawn == [] && s.running.None? && s.holding.None? && s.decodePosts == 0
  }

  /** The animation is running: its index has left INITIAL. */
  function IsStart(s: State): (started: bool)
    ensures started <==> s.frameIndex >= START_INDEX || s.frameIndex < INITIAL_INDEX
  {
    s.frameIndex != INITIAL_INDEX
  }

  /** The animation has drawn past its last frame. */
  function IsFinish(s: State): (finished: bool)
    requires s.ids.Some?
    ensures finished <==> s.frameIndex >= |s.ids.value|
  {
    s.frameIndex > |s.ids.value| - 1
  }

  /** The frame a bitmap shows, if anything was ever decoded into it. */
  function Pixels(s: State, b: BufferId): Option<int> {
    if b in s.pixels then Some(s.pixels[b]) else None
  }

  function Min(a: int, b: int): int {
    if a < b then a else b
  }

  /** A freshly constructed view: not started, not configured, no surface, no
      threads, no bitmap to reuse, the default frame duration, and a repeat
      count of 0 (the field's default). */
  function Init(): (s: State)
    ensures Idle(s) && !IsStart(s) && s.ids.None? && s.decoder.None? && s.reuse.None?
    ensures !s.alive && !s.drawHandler && s.drawPosts == 0 && !s.decodeHandler
    ensures s.duration == FRAME_DURATION && s.repeatTimes == 0 && s.repeatedCount == 0
  {
    State(None, INITIAL_INDEX, 0, 0, None, [], [], map[], None, None, None,
          false, 0, false, false, 0, FRAME_DURATION, 0)
  }

  // ---------------------------------------------------------------------
  // Configuration

  /** The preload's blocking puts into the decoded queue find room: one put
      per frame preloaded, at most BUFFER_SIZE. */
  predicate CanPreload(s: State, ids: Option<seq<int>>) {
    ids.None? || |ids.value| == 0 || |s.decoded| + Min(|ids.value|, BUFFER_SIZE) <= BUFFER_SIZE
  }

  /** The bitmap the codec decodes into through the shared decode options:
      the one they reuse, else a new one. */
  function Target(s: State): BufferId {
    if s.reuse.Some? then s.reuse.value else s.nextTag
  }

  /** One decode-and-cache of the preload: decode `frame` into the target
      bitmap and put that bitmap into the decoded queue. */
  function DecodeAndCache(s: State, frame: int): (r: State)
    requires |s.decoded| < BUFFER_SIZE
    ensures r.decoded == s.decoded + [Target(s)] && |r.decoded| <= BUFFER_SIZE
    ensures Pixels(r, Target(s)) == Some(frame)
    ensures s.reuse.None? ==> Target(s) == s.nextTag && r.nextTag == s.nextTag + 1
    ensures s.reuse.Some? ==> r.nextTag == s.nextTag
    ensures forall b :: b != Target(s) ==> Pixels(r, b) == Pixels(s, b)
    ensures r.(decoded := s.decoded, pixels := s.pixels, nextTag := s.nextTag) == s
  {
    var b := Target(s);
    s.(decoded := s.decoded + [b], pixels := s.pixels[b := frame],
       nextTag := if s.reuse.Some? then s.nextTag else s.nextTag + 1)
  }

  /** Sets the frame list and preloads its first two frames, then creates the
      decode task with its cursor past them. A null or empty list is ignored.
      The preload decodes through the shared decode options, so once a decode
      run has set a bitmap for reuse, both preloaded frames go into that one
      bitmap. A one-frame list preloads frame 0 and then fails reading frame
      1, before the decode task is created. */
  function SetDrawableIds(s: State, ids: Option<seq<int>>): (r: Step)
    requires CanPreload(s, ids)
    ensures ids.None? || |ids.value| == 0 ==> r == Step(s, None)
    ensures ids.Some? && |ids.value| == 1 ==>
      && r.thrown == Some(IndexOutOfBounds)
      && r.state.decoded == s.decoded + [Target(s)] && Pixels(r.state, Target(s)) == Some(ids.value[0])
      && r.state.decoder == s.decoder
    ensures ids.Some? && |ids.value| >= 2 ==>
      && r.thrown.None?
      && r.state.decoder == Some(Decoder(BUFFER_SIZE, |ids.value|))
      && (s.reuse.None? ==>
            && r.state.decoded == s.decoded + [s.nextTag, s.nextTag + 1]
            && Pixels(r.state, s.nextTag) == Some(ids.value[0]) && Pixels(r.state, s.nextTag + 1) == Some(ids.value[1]))
      && (s.reuse.Some? ==>
            && r.state.decoded == s.decoded + [s.reuse.value, s.reuse.value]
            && Pixels(r.state, s.reuse.value) == Some(ids.value[1]))
    ensures ids.Some? && |ids.value| > 0 ==> r.state.ids == ids
    ensures |s.decoded| <= |r.state.decoded| && r.state.decoded[..|s.decoded|] == s.decoded
    ensures forall b :: b !in r.state.decoded[|s.decoded|..] ==> Pixels(r.state, b) == Pixels(s, b)
    ensures r.state.(ids := s.ids, decoded := s.decoded, pixels := s.pixels, decoder := s.decoder, nextTag := s.nextTag) == s
  {
    if ids.None? || |ids.value| == 0 then Step(s, None)
    else
      var s1 := DecodeAndCache(s.(ids := ids), ids.value[0]);
      if |ids.value| == 1 then Step(s1, Some(IndexOutOfBounds))
      else
        var s2 := DecodeAndCache(s1, ids.value[1]);
        Step(s2.(decoder := Some(Decoder(BUFFER_SIZE, |ids.value|))), None)
  }

  /** Stores the repeat count, clamped from below to INFINITE. */
  function SetRepeatTimes(s: State, requested: int): (r: State)
    ensures r.repeatTimes == ClampRepeatTimes(requested)
    ensures r.(repeatTimes := s.repeatTimes) == s
  {
    s.(repeatTimes := ClampRepeatTimes(requested))
  }

  /** Replaces the delay between draw ticks. */
  function SetFrameDuration(s: State, duration: int): (r: State)
    ensures r.duration == duration
    ensures r.(duration := s.duration) == s
  {
    s.(duration := duration)
  }

  // ---------------------------------------------------------------------
  // Start, reset and stop

  /** Moves the frame index from INITIAL to the first frame (a compare-and-set:
      any other index is kept), makes sure the decode thread and handler
      exist, rewinds the decode task to frame 0 and posts it. Without a decode
      task the post carries nothing to run. A decode run already under way
      keeps the index it read. */
  function Start(s: State): (r: State)
    ensures IsStart(r)
    ensures r.frameIndex == (if IsStart(s) then s.frameIndex else START_INDEX)
    ensures r.decodeHandler
    ensures r.decoder.Some? <==> s.decoder.Some?
    ensures r.decoder.Some? ==> r.decoder.value == Decoder(0, s.decoder.value.size) && r.decodePosts == s.decodePosts + 1
    ensures r.decoder.None? ==> r.decodePosts == s.decodePosts
    ensures r.(frameIndex := s.frameIndex, decodeHandler := s.decodeHandler, decoder := s.decoder, decodePosts := s.decodePosts) == s
  {
    var d := if s.decoder.Some? then Some(s.decoder.value.(cursor := 0)) else None;
    s.(frameIndex := if s.frameIndex == INITIAL_INDEX then START_INDEX else s.frameIndex,
       decodeHandler := true,
       decoder := d,
       decodePosts := if d.Some? then s.decodePosts + 1 else s.decodePosts)
  }

  /** Puts the index back to INITIAL: the animation is no longer started. */
  function Reset(s: State): (r: State)
    ensures !IsStart(r)
    ensures r.(frameIndex := s.frameIndex) == s
  {
    s.(frameIndex := INITIAL_INDEX)
  }

  /** Quits the draw thread and nulls its handler: every queued tick is dropped. */
  function StopDrawThread(s: State): (r: State)
    ensures !r.drawHandler && r.drawPosts == 0
    ensures r.(drawHandler := s.drawHandler, drawPosts := s.drawPosts) == s
  {
    s.(drawHandler := false, drawPosts := 0)
  }

  // ---------------------------------------------------------------------
  // The draw tick

  /** What the canvas calls do on this tick. The canvas is opaque; drawing
      either succeeds, or throws while clearing (before anything is taken),
      or throws while drawing the bitmap (after the bitmap was taken). */
  datatype CanvasEffect = Drawn | ClearThrows | BlitThrows

  /** The observable calls a tick makes, in order. */
  datatype Event = LockCanvas | FrameDraw | UnlockCanvas | FrameDrawFinish | Reschedule

  /** A non-blocking enqueue: appends when there is room, and otherwise drops
      `b`. The queue never grows past its capacity. */
  function Offer(q: seq<BufferId>, b: BufferId): (r: seq<BufferId>)
    ensures |q| < BUFFER_SIZE ==> multiset(r) == multiset(q) + multiset{b} && r[..|q|] == q && r[|q|] == b
    ensures |q| >= BUFFER_SIZE ==> r == q
    ensures |q| <= BUFFER_SIZE ==> |r| <= BUFFER_SIZE
  {
    if |q| < BUFFER_SIZE then q + [b] else q
  }

  /** The result of drawing: the new state and the frame shown, if any. */
  datatype Drawing = Drawing(state: State, shown: Option<int>)

  /** Draws one frame: if started, takes the head of the decoded queue, shows
      its pixels, offers it to the drawn queue and advances the frame index. */
  function OnFrameDraw(s: State, effect: CanvasEffect): (r: Drawing)
    requires IsStart(s) && effect != ClearThrows ==> |s.decoded| > 0
    ensures effect == ClearThrows || !IsStart(s) ==> r == Drawing(s, None)
    ensures IsStart(s) && effect == BlitThrows ==> r == Drawing(s.(decoded := s.decoded[1..]), None)
    ensures IsStart(s) && effect == Drawn ==>
      && r.shown == Pixels(s, s.decoded[0])
      && r.state == s.(decoded := s.decoded[1..], drawn := Offer(s.drawn, s.decoded[0]), frameIndex := s.frameIndex + 1)
  {
    if effect == ClearThrows || !IsStart(s) then Drawing(s, None)
    else
      var b := s.decoded[0];
      var taken := s.(decoded := s.decoded[1..]);
      if effect == BlitThrows then Drawing(taken, None)
      else Drawing(taken.(drawn := Offer(s.drawn, b), frameIndex := s.frameIndex + 1), Pixels(s, b))
  }

  /** The finish hook: once the index is past the last frame, reset it and
      restart (forever, or while repeats remain, counting them) or stop the
      draw thread. Reading the frame list's size throws when it is null. */
  function OnFrameDrawFinish(s: State): (r: Step)
    ensures s.ids.None? ==> r == Step(s, Some(NullPointer))
    ensures s.ids.Some? && !IsFinish(s) ==> r == Step(s, None)
    ensures s.ids.Some? && IsFinish(s) ==>
      && r.thrown.None?
      && r.state.decoded == s.decoded && r.state.drawn == s.drawn && r.state.holding == s.holding
      && (OnFinish(s.repeatTimes, s.repeatedCount).Restart? ==>
            && r.state == Start(Reset(s)).(repeatedCount := OnFinish(s.repeatTimes, s.repeatedCount).count)
            && r.state.frameIndex == START_INDEX)
      && (OnFinish(s.repeatTimes, s.repeatedCount).Stop? ==>
            && r.state == StopDrawThread(Reset(s))
            && r.state.frameIndex == INITIAL_INDEX)
  {
    if s.ids.None? then Step(s, Some(NullPointer))
    else if !IsFinish(s) then Step(s, None)
    else
      match OnFinish(s.repeatTimes, s.repeatedCount)
      case Restart(c) => Step(Start(Reset(s)).(repeatedCount := c), None)
      case Stop => Step(StopDrawThread(Reset(s)), None)
  }

  /** The result of a tick: the new state, the frame shown, the exception that
      escaped the tick, and the calls the tick made. */
  datatype Tick = Tick(state: State, shown: Option<int>, thrown: Option<Fault>, events: seq<Event>)

  /** A queued tick can run; when it will draw, its blocking take needs a
      decoded bitmap. */
  predicate TickEnabled(s: State, effect: CanvasEffect) {
    s.drawPosts > 0 && (s.alive && IsStart(s) && effect != ClearThrows ==> |s.decoded| > 0)
  }

  /** One run of the draw task. While the surface is alive: lock the canvas,
      draw (exceptions are caught), unlock, call the finish hook, and queue
      the next tick if the draw handler is still non-null. An exception from
      the finish hook escapes and ends the tick there. */
  function DrawTick(s: State, effect: CanvasEffect): (r: Tick)
    requires TickEnabled(s, effect)
    ensures !s.alive ==> r == Tick(s.(drawPosts := s.drawPosts - 1), None, None, [])
    ensures s.alive ==> |r.events| >= 4 && r.events[..4] == [LockCanvas, FrameDraw, UnlockCanvas, FrameDrawFinish]
    ensures Reschedule in r.events <==> s.alive && r.thrown.None? && r.state.drawHandler
    ensures Reschedule in r.events ==> r.events == [LockCanvas, FrameDraw, UnlockCanvas, FrameDrawFinish, Reschedule]
    ensures Reschedule in r.events ==> r.state.drawPosts == s.drawPosts
    ensures r.thrown.Some? <==> s.alive && s.ids.None?
  {
    var s0 := s.(drawPosts := s.drawPosts - 1);
    if !s0.alive then Tick(s0, None, None, [])
    else
      var drawing := OnFrameDraw(s0, effect);
      var finish := OnFrameDrawFinish(drawing.state);
      var events := [LockCanvas, FrameDraw, UnlockCanvas, FrameDrawFinish];
      if finish.thrown.Some? then Tick(finish.state, drawing.shown, finish.thrown, events)
      else if finish.state.drawHandler then
        Tick(finish.state.(drawPosts := finish.state.drawPosts + 1), drawing.shown, None, events + [Reschedule])
      else Tick(finish.state, drawing.shown, None, events)
  }

  // ---------------------------------------------------------------------
  // The decode task, one run in three steps

  /** A queued decode run can start when the decode thread is not mid-run. */
  predicate BeginEnabled(s: State) {
    s.decodePosts > 0 && s.running.None? && s.decoder.Some?
  }

  /** A decode run starts: it leaves the handler's queue and reads the task's
      cursor, the index of the frame it will decode. A later rewind of the
      cursor does not change the index this run decodes. */
  function DecodeBegin(s: State): (r: State)
    requires BeginEnabled(s)
    ensures r.running == Some(s.decoder.value.cursor) && r.decodePosts == s.decodePosts - 1
    ensures r.(running := s.running, decodePosts := s.decodePosts) == s
  {
    s.(running := Some(s.decoder.value.cursor), decodePosts := s.decodePosts - 1)
  }

  /** The started run's blocking take from the drawn queue needs a bitmap. */
  predicate TakeEnabled(s: State) {
    s.running.Some? && s.holding.None? && |s.drawn| > 0
  }

  /** The run takes the head of the drawn queue, sets it as the bitmap the
      decode options reuse, and decodes into it the frame at the index the
      run read. Reading the frame list comes after the take, so a failing
      read ends the run with that bitmap lost. */
  function DecodeTake(s: State): (r: Step)
    requires TakeEnabled(s)
    ensures r.state.drawn == s.drawn[1..] && r.state.decoded == s.decoded
    ensures r.state.reuse == Some(s.drawn[0])
    ensures r.state.decoder == s.decoder && r.state.decodePosts == s.decodePosts
    ensures r.thrown.None? <==> s.ids.Some? && s.running.value < |s.ids.value|
    ensures r.thrown.None? ==>
      && r.state.holding == Some(s.drawn[0]) && r.state.running == s.running
      && Pixels(r.state, s.drawn[0]) == Some(s.ids.value[s.running.value])
    ensures r.thrown.Some? ==> r.state.holding.None? && r.state.running.None? && r.state.pixels == s.pixels
    ensures forall b :: b != s.drawn[0] ==> Pixels(r.state, b) == Pixels(s, b)
    ensures r.state.(drawn := s.drawn, reuse := s.reuse, pixels := s.pixels, running := s.running, holding := s.holding) == s
  {
    var b := s.drawn[0];
    var s1 := s.(drawn := s.drawn[1..], reuse := Some(b));
    var i := s.running.value;
    if s.ids.None? then Step(s1.(running := None), Some(NullPointer))
    else if i >= |s.ids.value| then Step(s1.(running := None), Some(IndexOutOfBounds))
    else Step(s1.(holding := Some(b), pixels := s.pixels[b := s.ids.value[i]]), None)
  }

  /** The run can finish: its blocking put into the decoded queue needs room. */
  predicate PutEnabled(s: State) {
    s.holding.Some? && s.decoder.Some? && |s.decoded| < BUFFER_SIZE
  }

  /** The run puts the held bitmap into the decoded queue, advances the task's
      cursor (as it is now, not as the run read it), and reposts the task
      while frames remain. Reposting through a nulled handler throws. */
  function DecodePut(s: State): (r: Step)
    requires PutEnabled(s)
    ensures r.state.decoded == s.decoded + [s.holding.value] && r.state.drawn == s.drawn
    ensures r.state.holding.None? && r.state.running.None?
    ensures r.state.decoder == Some(Advance(s.decoder.value).next)
    ensures r.thrown.Some? <==> Advance(s.decoder.value).reposted && !s.decodeHandler
    ensures r.state.decodePosts == s.decodePosts + (if Advance(s.decoder.value).reposted && s.decodeHandler then 1 else 0)
    ensures r.state.(decoded := s.decoded, holding := s.holding, running := s.running, decoder := s.decoder, decodePosts := s.decodePosts) == s
  {
    var s1 := s.(decoded := s.decoded + [s.holding.value], holding := None, running := None);
    var a := Advance(s.decoder.value);
    var s2 := s1.(decoder := Some(a.next));
    if !a.reposted then Step(s2, None)
    else if s.decodeHandler then Step(s2.(decodePosts := s2.decodePosts + 1), None)
    else Step(s2, Some(NullPointer))
  }

  // ---------------------------------------------------------------------
  // Surface lifecycle

  /** The surface appears: mark it alive and start the draw thread with one
      queued tick. */
  function SurfaceCreated(s: State): (r: State)
    ensures r.alive && r.drawHandler && r.drawPosts == s.drawPosts + 1
    ensures r.(alive := s.alive, drawHandler := s.drawHandler, drawPosts := s.drawPosts) == s
  {
    s.(alive := true, drawHandler := true, drawPosts := s.drawPosts + 1)
  }

  /** Releases every queued bitmap, quits the decode thread and drops its
      queued runs. A run already under way, and the bitmap it holds, are not
      reached; neither is the bitmap the decode options reuse. */
  function Destroy(s: State): (r: State)
    ensures r.decoded == [] && r.drawn == [] && r.decodePosts == 0 && !r.decodeHandler
    ensures r.holding == s.holding && r.running == s.running && r.reuse == s.reuse
    ensures r.(decoded := s.decoded, drawn := s.drawn, decodePosts := s.decodePosts, decodeHandler := s.decodeHandler) == s
  {
    s.(decoded := [], drawn := [], decodePosts := 0, decodeHandler := false)
  }

  /** The surface goes away: stop the draw thread, clear the alive flag, then
      release the bitmaps and the decode thread. */
  function SurfaceDestroyed(s: State): (r: State)
    ensures !r.alive && !r.drawHandler && r.drawPosts == 0
    ensures r.decoded == [] && r.drawn == [] && r.decodePosts == 0 && !r.decodeHandler
    ensures s.running.None? && s.holding.None? ==> Idle(r)
    ensures r.(alive := s.alive, drawHandler := s.drawHandler, drawPosts := s.drawPosts, decoded := s.decoded,
               drawn := s.drawn, decodePosts := s.decodePosts, decodeHandler := s.decodeHandler) == s
  {
    Destroy(StopDrawThread(s).(alive := false))
  }
}

=== FILE: measure.dfy ===
/** The sizing rule of the base surface view, over Android's packed measure
    specifications. A specification is a 32-bit word, read here as an
    unsigned number: the top two bits hold the mode and the low thirty bits
    hold the size. */
module Measure {

  /** Sizes are thirty-bit quantities; the mode sits above them. */
  const MODE_UNIT: nat := 0x4000_0000
  const WORD_LIMIT: nat := 0x1_0000_0000

  type Word = w: nat | w < WORD_LIMIT

  datatype Mode = Unspecified | Exactly | AtMost

  /** The value of a mode's top two bits. */
  function ModeBits(m: Mode): nat {
    match m
    case Unspecified => 0
    case Exactly => 1
    case AtMost => 2
  }

  /** The mode field of a specification: its top two bits. */
  function GetMode(spec: Word): (bits: nat)
    ensures bits < 4
  {
    spec / MODE_UNIT
  }

  /** The size field of a specification: its low thirty bits. */
  function GetSize(spec: Word): (size: nat)
    ensures size < MODE_UNIT
  {
    spec % MODE_UNIT
  }

  /** Packs a size and a mode; unpacking gives both back unchanged. */
  function MakeSpec(size: nat, mode: Mode): (spec: Word)
    requires size < MODE_UNIT
    ensures GetMode(spec) == ModeBits(mode)
    ensures GetSize(spec) == size
  {
    ModeBits(mode) * MODE_UNIT + size
  }

  /** The other direction: a specification whose mode field is a known mode
      is the packing of its size with that mode. */
  lemma UnpackRepack(spec: Word, mode: Mode)
    requires GetMode(spec) == ModeBits(mode)
    ensures MakeSpec(GetSize(spec), mode) == spec
  {
  }

  datatype Dimensions = Dimensions(width: int, height: int)

  /** The measured dimensions of the view: in each direction the view's
      default when the mode is AT_MOST, else the requested size. */
  function OnMeasure(widthSpec: Word, heightSpec: Word, defaultWidth: int, defaultHeight: int): (r: Dimensions)
    ensures GetMode(widthSpec) == ModeBits(AtMost) ==> r.width == defaultWidth
    ensures GetMode(widthSpec) != ModeBits(AtMost) ==> r.width == GetSize(widthSpec)
    ensures GetMode(heightSpec) == ModeBits(AtMost) ==> r.height == defaultHeight
    ensures GetMode(heightSpec) != ModeBits(AtMost) ==> r.height == GetSize(heightSpec)
  {
    Dimensions(
      if GetMode(widthSpec) == ModeBits(AtMost) then defaultWidth else GetSize(widthSpec),
      if GetMode(heightSpec) == ModeBits(AtMost) then defaultHeight else GetSize(heightSpec))
  }

  /** Measuring against packed specifications: AT_MOST yields the view's
      default, EXACTLY and UNSPECIFIED yield the requested size. */
  lemma MeasuredDimensions(width: nat, widthMode: Mode, height: nat, heightMode: Mode,
                           defaultWidth: int, defaultHeight: int)
    requires width < MODE_UNIT && height < MODE_UNIT
    ensures OnMeasure(MakeSpec(width, widthMode), MakeSpec(height, heightMode), defaultWidth, defaultHeight)
         == Dimensions(if widthMode == AtMost then defaultWidth else width,
                       if heightMode == AtMost then defaultHeight else height)
  {
  }
}

=== FILE: pipeline.dfy ===
/** The frame pipeline as a whole: every action of the view, their
    interleavings, and the invariant those interleavings keep — the two
    preloaded bitmaps circulate between the decoded queue, the drawn queue
    and the decode thread, none created, none lost, none duplicated. */
module Pipeline {
  import opened Common
  import opened DecodeTask
  import opened FrameView

  /** One action of the view: a call from the host, a surface callback, a run
      of the draw task, or one of the three steps of a run of the decode task. */
  datatype Action =
    | Configure(ids: Option<seq<int>>)
    | RepeatTimes(times: int)
    | StartAnimation
    | FrameDuration(duration: int)
    | Created
    | StopDraw
    | Destroyed
    | Draw(effect: CanvasEffect)
    | Begin
    | Take
    | Put

  predicate Enabled(s: State, a: Action) {
    match a
    case Configure(ids) => CanPreload(s, ids)
    case Draw(effect) => TickEnabled(s, effect)
    case Begin => BeginEnabled(s)
    case Take => TakeEnabled(s)
    case Put => PutEnabled(s)
    case _ => true
  }

  function Apply(s: State, a: Action): Step
    requires Enabled(s, a)
  {
    match a
    case Configure(ids) => SetDrawableIds(s, ids)
    case RepeatTimes(times) => Step(SetRepeatTimes(s, times), None)
    case StartAnimation => Step(Start(s), None)
    case FrameDuration(d) => Step(SetFrameDuration(s, d), None)
    case Created => Step(SurfaceCreated(s), None)
    case StopDraw => Step(StopDrawThread(s), None)
    case Destroyed => Step(SurfaceDestroyed(s), None)
    case Draw(effect) =>
      var t := DrawTick(s, effect);
      Step(t.state, t.thrown)
    case Begin => Step(DecodeBegin(s), None)
    case Take => DecodeTake(s)
    case Put => DecodePut(s)
  }

  /** How a sequence of actions ends: all ran, or action `at` was not enabled,
      or action `at` threw. */
  datatype Run = Ran(state: State) | Blocked(at: nat) | Threw(at: nat, fault: Fault)

  function Execute(s: State, acts: seq<Action>): (r: Run)
    ensures r.Blocked? ==> r.at < |acts|
    ensures r.Threw? ==> r.at < |acts|
    decreases |acts|
  {
    if |acts| == 0 then Ran(s)
    else if !Enabled(s, acts[0]) then Blocked(0)
    else
      var st := Apply(s, acts[0]);
      if st.thrown.Some? then Threw(0, st.thrown.value)
      else match Execute(st.state, acts[1..])
        case Ran(t) => Ran(t)
        case Blocked(i) => Blocked(i + 1)
        case Threw(i, f) => Threw(i + 1, f)
  }

  /** The actions that happen during a run: everything but reconfiguration,
      which adds bitmaps, the surface's destruction, which releases them, and
      a draw whose bitmap call throws, which drops one. */
  predicate RunAction(a: Action) {
    !a.Configure? && !a.Destroyed? && a != Draw(BlitThrows)
  }

  // ---------------------------------------------------------------------
  // Bitmap identities

  function Held(s: State): seq<BufferId> {
    if s.holding.Some? then [s.holding.value] else []
  }

  /** Every bitmap in the pipeline: both queues and the decode thread's hand. */
  function Circulating(s: State): seq<BufferId> {
    s.decoded + s.drawn + Held(s)
  }

  function Pool(s: State): multiset<BufferId> {
    multiset(Circulating(s))
  }

  /** The run invariant: the view is configured with at least BUFFER_SIZE
      frames and its decode task matches the list; a queued decode run will
      read inside the list, and so will a started one; a queued or started
      run has a live handler to repost through; exactly BUFFER_SIZE distinct
      bitmaps circulate, each holding a decoded frame. */
  ghost predicate Inv(s: State) {
    && s.ids.Some? && |s.ids.value| >= BUFFER_SIZE
    && s.decoder.Some? && s.decoder.value.size == |s.ids.value|
    && s.decoder.value.cursor <= s.decoder.value.size
    && (s.decodePosts > 0 ==> s.decoder.value.cursor < s.decoder.value.size)
    && (s.running.Some? ==> s.running.value < |s.ids.value|)
    && (s.holding.Some? ==> s.running.Some?)
    && (s.decodePosts > 0 || s.running.Some? ==> s.decodeHandler)
    && |Circulating(s)| == BUFFER_SIZE
    && Sound(Pool(s), s.pixels.Keys)
  }

  /** No bitmap circulates twice, and each holds a decoded frame. */
  ghost predicate Sound(pool: multiset<BufferId>, decodedInto: set<BufferId>) {
    && (forall b :: pool[b] <= 1)
    && (forall b :: b in pool ==> b in decodedInto)
  }

  /** Two different bitmaps, both decoded into, are sound. */
  lemma SoundPair(a: BufferId, b: BufferId, keys: set<BufferId>)
    requires a != b && a in keys && b in keys
    ensures Sound(multiset([a, b]), keys)
  {
    assert multiset([a, b]) == multiset{a, b};
  }

  /** Soundness depends only on which bitmaps circulate, and decoding into
      more bitmaps keeps it. */
  lemma SoundCarries(pool: multiset<BufferId>, keys: set<BufferId>, pool': multiset<BufferId>, keys': set<BufferId>)
    requires Sound(pool, keys) && pool' == pool && keys <= keys'
    ensures Sound(pool', keys')
  {
  }

  /** What a first preload leaves behind: two new bitmaps holding frames 0
      and 1, and the decode task at cursor 2 with nothing queued or running. */
  lemma PreloadFresh(s: State, ids: seq<int>)
    requires Idle(s) && s.reuse.None? && |ids| >= BUFFER_SIZE
    ensures CanPreload(s, Some(ids))
    ensures var r := SetDrawableIds(s, Some(ids));
            && r.thrown.None?
            && r.state.decoded == [s.nextTag, s.nextTag + 1] && r.state.drawn == [] && r.state.holding.None?
            && s.nextTag in r.state.pixels && s.nextTag + 1 in r.state.pixels
            && r.state.running.None? && r.state.decodePosts == 0
            && r.state.ids == Some(ids) && r.state.decoder == Some(Decoder(BUFFER_SIZE, |ids|))
  {
    var r := SetDrawableIds(s, Some(ids));
    assert Pixels(r.state, s.nextTag) == Some(ids[0]);
    assert Pixels(r.state, s.nextTag + 1) == Some(ids[1]);
  }

  /** Configuring an idle view that has never decoded through its shared
      options, with at least two frames, starts a run: the invariant holds
      and the pool is the two freshly allocated bitmaps. */
  lemma PreloadEstablishes(s: State, ids: seq<int>)
    requires Idle(s) && s.reuse.None? && |ids| >= BUFFER_SIZE
    ensures CanPreload(s, Some(ids))
    ensures SetDrawableIds(s, Some(ids)).thrown.None?
    ensures Inv(SetDrawableIds(s, Some(ids)).state)
    ensures Pool(SetDrawableIds(s, Some(ids)).state) == multiset{s.nextTag, s.nextTag + 1}
  {
    var n := s.nextTag;
    PreloadFresh(s, ids);
    var t := SetDrawableIds(s, Some(ids)).state;
    assert Circulating(t) == [n, n + 1];
    SoundPair(n, n + 1, t.pixels.Keys);
  }

  /** Configuring an idle view again after a decode run has set a bitmap for
      reuse does not start a proper run: both preloaded frames are decoded
      into that one bitmap, which then sits twice in the decoded queue and
      shows frame 1 both times. */
  lemma ReconfigureAliases(s: State, ids: seq<int>)
    requires Idle(s) && s.reuse.Some? && |ids| >= BUFFER_SIZE
    ensures CanPreload(s, Some(ids))
    ensures SetDrawableIds(s, Some(ids)).thrown.None?
    ensures SetDrawableIds(s, Some(ids)).state.decoded == [s.reuse.value, s.reuse.value]
    ensures Pool(SetDrawableIds(s, Some(ids)).state) == multiset{s.reuse.value, s.reuse.value}
    ensures Pixels(SetDrawableIds(s, Some(ids)).state, s.reuse.value) == Some(ids[1])
    ensures !Inv(SetDrawableIds(s, Some(ids)).state)
  {
    var t := SetDrawableIds(s, Some(ids)).state;
    var b := s.reuse.value;
    assert Circulating(t) == [b, b];
    assert Pool(t)[b] == 2;
  }

  /** During a run neither queue operation that could lose a bitmap does: the
      decode thread's put always finds room, a drawing tick's non-blocking
      offer always finds room, and when both queues are empty the decode
      thread holds a bitmap. */
  lemma PutAndOfferFindRoom(s: State)
    requires Inv(s)
    ensures s.holding.Some? ==> |s.decoded| < BUFFER_SIZE
    ensures |s.decoded| > 0 ==> |s.drawn| < BUFFER_SIZE
    ensures |s.decoded| == 0 && |s.drawn| == 0 ==> s.holding.Some?
  {
  }

  /** The finish hook of a configured view leaves every bitmap where it is;
      when it restarts, it rewinds the decode task and queues a decode run. */
  lemma FinishKeepsBuffers(s: State)
    requires s.ids.Some?
    ensures OnFrameDrawFinish(s).thrown.None?
    ensures OnFrameDrawFinish(s).state.decoded == s.decoded
    ensures OnFrameDrawFinish(s).state.drawn == s.drawn
    ensures OnFrameDrawFinish(s).state.holding == s.holding
    ensures OnFrameDrawFinish(s).state.running == s.running
    ensures OnFrameDrawFinish(s).state.pixels == s.pixels
    ensures OnFrameDrawFinish(s).state.ids == s.ids
    ensures OnFrameDrawFinish(s).state.decoder == s.decoder ||
            (s.decoder.Some? && OnFrameDrawFinish(s).state.decoder == Some(Decoder(0, s.decoder.value.size)))
    ensures s.decodeHandler ==> OnFrameDrawFinish(s).state.decodeHandler
    ensures OnFrameDrawFinish(s).state.decodePosts == s.decodePosts ||
            (s.decoder.Some? && OnFrameDrawFinish(s).state.decodePosts == s.decodePosts + 1 && OnFrameDrawFinish(s).state.decodeHandler &&
             OnFrameDrawFinish(s).state.decoder == Some(Decoder(0, s.decoder.value.size)))
  {
  }

  /** Drawing touches only the two queues and the frame index. */
  lemma DrawingKeepsTask(s: State, effect: CanvasEffect)
    requires IsStart(s) && effect != ClearThrows ==> |s.decoded| > 0
    ensures var d := OnFrameDraw(s, effect).state;
            d.(decoded := s.decoded, drawn := s.drawn, frameIndex := s.frameIndex) == s
  {
  }

  /** A live tick's state is its finish hook's, with one more tick queued
      when it reschedules. */
  lemma LiveTickIsFinish(s: State, effect: CanvasEffect)
    requires s.alive && s.ids.Some? && TickEnabled(s, effect)
    ensures var f := OnFrameDrawFinish(OnFrameDraw(s.(drawPosts := s.drawPosts - 1), effect).state).state;
            DrawTick(s, effect).state == f || DrawTick(s, effect).state == f.(drawPosts := f.drawPosts + 1)
  {
  }

  /** What a live tick does to the bitmaps: exactly what drawing did, since
      the finish hook moves none. */
  lemma LiveTickBuffers(s: State, effect: CanvasEffect)
    requires s.alive && s.ids.Some? && TickEnabled(s, effect)
    ensures var d := OnFrameDraw(s.(drawPosts := s.drawPosts - 1), effect).state;
            var t := DrawTick(s, effect).state;
            && t.decoded == d.decoded && t.drawn == d.drawn && t.holding == d.holding
            && t.running == s.running && t.pixels == s.pixels
            && t.ids == s.ids
            && (t.decoder == s.decoder || (s.decoder.Some? && t.decoder == Some(Decoder(0, s.decoder.value.size))))
            && (s.decodeHandler ==> t.decodeHandler)
            && (t.decodePosts == s.decodePosts ||
                (s.decoder.Some? && t.decodePosts == s.decodePosts + 1 && t.decodeHandler && t.decoder == Some(Decoder(0, s.decoder.value.size))))
  {
    var d := OnFrameDraw(s.(drawPosts := s.drawPosts - 1), effect).state;
    var f := OnFrameDrawFinish(d);
    FinishKeepsBuffers(d);
    DrawingKeepsTask(s.(drawPosts := s.drawPosts - 1), effect);
    LiveTickIsFinish(s, effect);
  }

  /** A live tick shows what its drawing showed. */
  lemma LiveTickShows(s: State, effect: CanvasEffect)
    requires s.alive && TickEnabled(s, effect)
    ensures DrawTick(s, effect).shown == OnFrameDraw(s.(drawPosts := s.drawPosts - 1), effect).shown
  {
  }

  /** Moving the head of the decoded queue to the tail of the drawn queue
      keeps the same bitmaps. */
  lemma MoveHeadKeepsPool(decoded: seq<BufferId>, drawn: seq<BufferId>, held: seq<BufferId>)
    requires |decoded| > 0
    ensures multiset(decoded[1..] + (drawn + [decoded[0]]) + held) == multiset(decoded + drawn + held)
  {
    assert decoded == [decoded[0]] + decoded[1..];
  }

  /** A live tick that draws moves the head of the decoded queue to the
      tail of the drawn queue, keeping the same bitmaps circulating. */
  lemma DrawnTickMovesHead(s: State)
    requires Inv(s) && s.alive && IsStart(s) && TickEnabled(s, Drawn)
    ensures Inv(DrawTick(s, Drawn).state)
    ensures Pool(DrawTick(s, Drawn).state) == Pool(s)
  {
    var t := DrawTick(s, Drawn).state;
    LiveTickBuffers(s, Drawn);
    assert t.decoded == s.decoded[1..] && t.drawn == s.drawn + [s.decoded[0]];
    MoveHeadKeepsPool(s.decoded, s.drawn, Held(s));
    assert Circulating(t) == s.decoded[1..] + (s.drawn + [s.decoded[0]]) + Held(s);
    SoundCarries(Pool(s), s.pixels.Keys, Pool(t), t.pixels.Keys);
  }

  /** A live tick that draws shows the frame last decoded into the head of
      the decoded queue. */
  lemma DrawnTickShows(s: State)
    requires Inv(s) && s.alive && IsStart(s) && TickEnabled(s, Drawn)
    ensures DrawTick(s, Drawn).shown == Some(s.pixels[s.decoded[0]])
  {
    LiveTickShows(s, Drawn);
    assert s.decoded[0] in Pool(s) by {
      assert Circulating(s)[0] == s.decoded[0];
    }
  }

  /** A tick that does not draw, on a dead surface, on a view not started
      or with a canvas that throws while clearing, moves no bitmap. */
  lemma QuietTickKeeps(s: State, effect: CanvasEffect)
    requires Inv(s) && effect != BlitThrows && TickEnabled(s, effect)
    requires !(s.alive && IsStart(s) && effect == Drawn)
    ensures Inv(DrawTick(s, effect).state)
    ensures Circulating(DrawTick(s, effect).state) == Circulating(s)
  {
    var t := DrawTick(s, effect).state;
    if s.alive {
      LiveTickBuffers(s, effect);
    }
    assert Circulating(t) == Circulating(s);
    SoundCarries(Pool(s), s.pixels.Keys, Pool(t), t.pixels.Keys);
  }

  /** A draw tick during a run moves at most the head of the decoded queue to
      the tail of the drawn queue, never throws and keeps the invariant; a
      tick that draws shows the frame last decoded into that bitmap. */
  lemma DrawPreserves(s: State, effect: CanvasEffect)
    requires Inv(s) && effect != BlitThrows && TickEnabled(s, effect)
    ensures DrawTick(s, effect).thrown.None?
    ensures Inv(DrawTick(s, effect).state)
    ensures Pool(DrawTick(s, effect).state) == Pool(s)
    ensures s.alive && IsStart(s) && effect == Drawn ==>
              DrawTick(s, effect).shown == Some(s.pixels[s.decoded[0]])
  {
    if s.alive && IsStart(s) && effect == Drawn {
      DrawnTickMovesHead(s);
      DrawnTickShows(s);
    } else {
      QuietTickKeeps(s, effect);
    }
  }

  /** Starting a decode run during a run reads a cursor inside the frame
      list and keeps the invariant; no bitmap moves. */
  lemma BeginPreserves(s: State)
    requires Inv(s) && BeginEnabled(s)
    ensures Inv(DecodeBegin(s))
    ensures DecodeBegin(s).running.value < |s.ids.value|
    ensures Pool(DecodeBegin(s)) == Pool(s)
  {
    assert Circulating(DecodeBegin(s)) == Circulating(s);
  }

  /** The decode thread's take during a run reads inside the frame list and
      keeps the invariant: the taken bitmap moves into the thread's hand. */
  lemma TakePreserves(s: State)
    requires Inv(s) && TakeEnabled(s)
    ensures DecodeTake(s).thrown.None?
    ensures Inv(DecodeTake(s).state)
    ensures Pool(DecodeTake(s).state) == Pool(s)
  {
    var t := DecodeTake(s).state;
    var b := s.drawn[0];
    assert s.drawn == [b] + s.drawn[1..];
    assert Circulating(t) == s.decoded + s.drawn[1..] + [b];
    assert Circulating(s) == s.decoded + ([b] + s.drawn[1..]);
    assert Pool(t) == Pool(s);
    SoundCarries(Pool(s), s.pixels.Keys, Pool(t), t.pixels.Keys);
  }

  /** The decode thread's put during a run never throws and keeps the
      invariant: the held bitmap moves to the tail of the decoded queue. */
  lemma PutPreserves(s: State)
    requires Inv(s) && PutEnabled(s)
    ensures DecodePut(s).thrown.None?
    ensures Inv(DecodePut(s).state)
    ensures Pool(DecodePut(s).state) == Pool(s)
  {
    var t := DecodePut(s).state;
    var h := s.holding.value;
    assert Circulating(t) == s.decoded + [h] + s.drawn;
    assert Circulating(s) == s.decoded + s.drawn + [h];
    assert Pool(t) == Pool(s);
    SoundCarries(Pool(s), s.pixels.Keys, Pool(t), t.pixels.Keys);
  }

  /** Every action of a run that is enabled keeps the invariant and the pool,
      and none throws. */
  lemma StepPreserves(s: State, a: Action)
    requires Inv(s) && RunAction(a) && Enabled(s, a)
    ensures Apply(s, a).thrown.None?
    ensures Inv(Apply(s, a).state)
    ensures Pool(Apply(s, a).state) == Pool(s)
  {
    if a.Draw? {
      DrawPreserves(s, a.effect);
    } else if a.Begin? {
      BeginPreserves(s);
    } else if a.Take? {
      TakePreserves(s);
    } else if a.Put? {
      PutPreserves(s);
    } else {
      assert Circulating(Apply(s, a).state) == Circulating(s);
    }
  }

  /** Bitmap conservation over any interleaving: from a state satisfying the
      invariant, every sequence of run actions either blocks at some action
      or runs to the end; it never throws, and the state it ends in keeps the
      invariant with exactly the same bitmaps circulating. */
  lemma {:induction false} Conservation(s: State, acts: seq<Action>)
    requires Inv(s)
    requires forall i :: 0 <= i < |acts| ==> RunAction(acts[i])
    ensures !Execute(s, acts).Threw?
    ensures Execute(s, acts).Ran? ==> Inv(Execute(s, acts).state) && Pool(Execute(s, acts).state) == Pool(s)
    decreases |acts|
  {
    if |acts| > 0 && Enabled(s, acts[0]) {
      StepPreserves(s, acts[0]);
      Conservation(Apply(s, acts[0]).state, acts[1..]);
    }
  }

  /** A live tick whose bitmap call throws leaves every bitmap but the head
      of the decoded queue where it was. */
  lemma BlitTickDropsHead(s: State)
    requires s.ids.Some? && s.alive && IsStart(s) && TickEnabled(s, BlitThrows)
    ensures Circulating(DrawTick(s, BlitThrows).state) == s.decoded[1..] + s.drawn + Held(s)
  {
    LiveTickBuffers(s, BlitThrows);
  }

  /** A bitmap call that throws after the take loses the taken bitmap: it is
      in neither queue afterwards, so one bitmap fewer circulates. */
  lemma BlitFailureLosesBuffer(s: State)
    requires Inv(s) && s.alive && IsStart(s) && TickEnabled(s, BlitThrows)
    ensures Pool(DrawTick(s, BlitThrows).state) + multiset{s.decoded[0]} == Pool(s)
    ensures s.decoded[0] !in Pool(DrawTick(s, BlitThrows).state)
    ensures |Circulating(DrawTick(s, BlitThrows).state)| == BUFFER_SIZE - 1
  {
    var t := DrawTick(s, BlitThrows).state;
    BlitTickDropsHead(s);
    ConsSplit(s.decoded, s.drawn, Held(s));
    assert Pool(s)[s.decoded[0]] <= 1;
    HeadLeaves(Circulating(s), Circulating(t), s.decoded[0]);
  }

  /** A non-empty first part splits off its head. */
  lemma ConsSplit(x: seq<BufferId>, y: seq<BufferId>, z: seq<BufferId>)
    requires |x| > 0
    ensures x + y + z == [x[0]] + (x[1..] + y + z)
  {
    assert x == [x[0]] + x[1..];
  }

  /** Taking the only copy of a bitmap off the front of a sequence leaves a
      sequence without it. */
  lemma HeadLeaves(whole: seq<BufferId>, rest: seq<BufferId>, b: BufferId)
    requires whole == [b] + rest && multiset(whole)[b] <= 1
    ensures multiset(rest) + multiset{b} == multiset(whole)
    ensures b !in multiset(rest)
    ensures |rest| == |whole| - 1
  {
  }

  /** Once the draw thread is stopped, no tick runs again until the surface is
      created anew: any sequence of actions without a surface creation leaves
      the draw handler null and no tick queued. */
  lemma {:induction false} HaltedStaysHalted(s: State, acts: seq<Action>)
    requires !s.drawHandler && s.drawPosts == 0
    requires forall i :: 0 <= i < |acts| ==> acts[i] != Created
    ensures Execute(s, acts).Ran? ==> !Execute(s, acts).state.drawHandler && Execute(s, acts).state.drawPosts == 0
    ensures Execute(s, acts).Ran? ==> forall i :: 0 <= i < |acts| ==> !acts[i].Draw?
    decreases |acts|
  {
    if |acts| > 0 && Enabled(s, acts[0]) {
      var st := Apply(s, acts[0]);
      assert !acts[0].Draw?;
      if st.thrown.None? {
        HaltedStaysHalted(st.state, acts[1..]);
        if Execute(s, acts).Ran? {
          forall i | 0 <= i < |acts| ensures !acts[i].Draw? {
            if i > 0 { assert acts[i] == acts[1..][i - 1]; }
          }
        }
      }
    }
  }
}

=== FILE: repeat.dfy ===
/** The repeat policy consulted when a run of the animation completes. */
module Repeat {

  /** The repeat count meaning "repeat forever". */
  const INFINITE: int := -1

  /** The stored repeat count: the requested one, raised to INFINITE when it
      is lower. */
  function ClampRepeatTimes(requested: int): (stored: int)
    ensures stored >= INFINITE
    ensures stored == INFINITE <==> requested <= INFINITE
    ensures requested >= INFINITE ==> stored == requested
  {
    if requested > INFINITE then requested else INFINITE
  }

  /** What the finish hook does: restart with the given repeat count, or stop. */
  datatype Decision = Restart(count: int) | Stop

  function OnFinish(repeatTimes: int, repeatedCount: int): (r: Decision)
    ensures r.Stop? <==> repeatTimes != INFINITE && repeatedCount >= repeatTimes
    ensures repeatTimes == INFINITE ==> r == Restart(repeatedCount)
    ensures repeatTimes != INFINITE && r.Restart? ==> r.count == repeatedCount + 1 && r.count <= repeatTimes
  {
    if repeatTimes == INFINITE then Restart(repeatedCount)
    else if repeatedCount < repeatTimes then Restart(repeatedCount + 1)
    else Stop
  }

  /** The next `completions` runs to complete, starting with the given count,
      all end in a restart. */
  predicate Survives(repeatTimes: int, repeatedCount: int, completions: nat)
    decreases completions
  {
    completions == 0 ||
    match OnFinish(repeatTimes, repeatedCount)
    case Restart(c) => Survives(repeatTimes, c, completions - 1)
    case Stop => false
  }

  /** With a finite repeat count R and c repeats already done, exactly the
      next R - c completions restart: the animation plays R - c + 1 more
      runs and then stops. From c = 0 that is R + 1 runs in all. */
  lemma {:induction false} FiniteRepeats(repeatTimes: int, repeatedCount: int, completions: nat)
    requires 0 <= repeatedCount <= repeatTimes
    ensures Survives(repeatTimes, repeatedCount, completions) <==> completions <= repeatTimes - repeatedCount
    decreases completions
  {
    if completions > 0 {
      if repeatedCount < repeatTimes {
        FiniteRepeats(repeatTimes, repeatedCount + 1, completions - 1);
      }
    }
  }

  /** With INFINITE, every completion restarts and the count never moves. */
  lemma {:induction false} InfiniteRepeats(repeatedCount: int, completions: nat)
    ensures Survives(INFINITE, repeatedCount, completions)
    decreases completions
  {
    if completions > 0 {
      InfiniteRepeats(repeatedCount, completions - 1);
    }
  }
}

=== FILE: scenarios.dfy ===
/** Properties of whole call sequences on the view: how the first run
    presents its frames, repeated starts, and how a finishing run stops the
    draw loop for good. */
module Scenarios {
  import opened Common
  import opened DecodeTask
  import opened Repeat
  import opened FrameView
  import opened Pipeline

  /** A second start leaves the frame index where the first one put it, and
      both leave the view started. */
  lemma StartKeepsIndex(s: State)
    ensures IsStart(Start(s)) && Start(Start(s)).frameIndex == Start(s).frameIndex
    ensures IsStart(s) ==> Start(s).frameIndex == s.frameIndex
    ensures !IsStart(Reset(s)) && Start(Reset(s)).frameIndex == START_INDEX
  {
  }

  /** A new view configured with `ids`: frames 0 and 1 preloaded into
      bitmaps 0 and 1, and the decode task at cursor 2. */
  function Configured(ids: seq<int>): State
    requires |ids| >= BUFFER_SIZE
  {
    State(Some(ids), INITIAL_INDEX, 0, 0, Some(Decoder(2, |ids|)), [0, 1], [], map[0 := ids[0], 1 := ids[1]],
          None, None, None, false, 0, false, false, 0, FRAME_DURATION, 2)
  }

  /** That view started on a live surface: the task is rewound and queued and
      the first tick is queued. */
  function Playing(ids: seq<int>): State
    requires |ids| >= BUFFER_SIZE
  {
    Configured(ids).(frameIndex := START_INDEX, decoder := Some(Decoder(0, |ids|)), decodeHandler := true,
                     decodePosts := 1, alive := true, drawHandler := true, drawPosts := 1)
  }

  lemma ConfigureNewView(ids: seq<int>)
    requires |ids| >= BUFFER_SIZE
    ensures CanPreload(Init(), Some(ids))
    ensures SetDrawableIds(Init(), Some(ids)) == Step(Configured(ids), None)
    ensures SurfaceCreated(Start(Configured(ids))) == Playing(ids)
  {
  }

  /** The first tick shows frame 0 and hands bitmap 0 to the decoder. */
  lemma FirstTick(ids: seq<int>)
    requires |ids| >= BUFFER_SIZE
    ensures TickEnabled(Playing(ids), Drawn)
    ensures DrawTick(Playing(ids), Drawn).shown == Some(ids[0])
    ensures DrawTick(Playing(ids), Drawn).state == Playing(ids).(decoded := [1], drawn := [0], frameIndex := 1)
  {
    var p := Playing(ids);
    assert OnFrameDraw(p.(drawPosts := 0), Drawn) == Drawing(p.(drawPosts := 0, decoded := [1], drawn := [0], frameIndex := 1), Some(ids[0]));
  }

  /** The first decode run reads the rewound cursor 0, refills bitmap 0 with
      frame 0, sets it for reuse, and queues the task at cursor 1. */
  lemma FirstDecode(ids: seq<int>)
    requires |ids| >= 3
    ensures var s := Playing(ids).(decoded := [1], drawn := [0], frameIndex := 1);
            && BeginEnabled(s)
            && DecodeBegin(s).running == Some(0)
            && TakeEnabled(DecodeBegin(s))
            && DecodeTake(DecodeBegin(s)).thrown.None?
            && DecodeTake(DecodeBegin(s)).state.reuse == Some(0)
            && PutEnabled(DecodeTake(DecodeBegin(s)).state)
            && DecodePut(DecodeTake(DecodeBegin(s)).state)
               == Step(s.(decoded := [1, 0], drawn := [], reuse := Some(0), decoder := Some(Decoder(1, |ids|))), None)
  {
    var s := Playing(ids).(decoded := [1], drawn := [0], frameIndex := 1);
    var s4 := DecodeTake(DecodeBegin(s)).state;
    assert s4 == s.(drawn := [], reuse := Some(0), running := Some(0), holding := Some(0), decodePosts := 0);
  }

  /** The next two ticks show frames 1 and 0. */
  lemma NextTicks(ids: seq<int>)
    requires |ids| >= 3
    ensures var s := Playing(ids).(decoded := [1, 0], drawn := [], frameIndex := 1, reuse := Some(0),
                                   decoder := Some(Decoder(1, |ids|)));
            && TickEnabled(s, Drawn)
            && DrawTick(s, Drawn).shown == Some(ids[1])
            && TickEnabled(DrawTick(s, Drawn).state, Drawn)
            && DrawTick(DrawTick(s, Drawn).state, Drawn).shown == Some(ids[0])
  {
    var s := Playing(ids).(decoded := [1, 0], drawn := [], frameIndex := 1, reuse := Some(0),
                           decoder := Some(Decoder(1, |ids|)));
    assert OnFrameDraw(s.(drawPosts := 0), Drawn).state == s.(drawPosts := 0, decoded := [0], drawn := [1], frameIndex := 2);
    var t := DrawTick(s, Drawn).state;
    assert t == s.(decoded := [0], drawn := [1], frameIndex := 2);
  }

  /** The first run does not present the list in order. Configuring preloads
      frames 0 and 1 into two new bitmaps and leaves the decode task at
      cursor 2, but starting rewinds the task to cursor 0, so the first
      decode refills frame 0: the run presents frames 0, 1, 0, ... That
      first decode also leaves its bitmap set for reuse. */
  lemma FirstRunRepeatsPreload(ids: seq<int>)
    requires |ids| >= 3
    ensures var s1 := SetDrawableIds(Init(), Some(ids)).state;
            var s2 := SurfaceCreated(Start(s1));
            && s1.decoder == Some(Decoder(2, |ids|))
            && s1.decoded == [0, 1] && Pixels(s1, 0) == Some(ids[0]) && Pixels(s1, 1) == Some(ids[1])
            && s2.decoder == Some(Decoder(0, |ids|))
            && TickEnabled(s2, Drawn)
            && var t1 := DrawTick(s2, Drawn);
               && t1.shown == Some(ids[0])
               && BeginEnabled(t1.state)
               && var s3 := DecodeBegin(t1.state);
                  && s3.running == Some(0)
                  && TakeEnabled(s3)
                  && var s4 := DecodeTake(s3).state;
                     && s4.reuse == Some(0)
                     && PutEnabled(s4)
                     && var s5 := DecodePut(s4).state;
                        && TickEnabled(s5, Drawn)
                        && var t2 := DrawTick(s5, Drawn);
                           && t2.shown == Some(ids[1])
                           && TickEnabled(t2.state, Drawn)
                           && DrawTick(t2.state, Drawn).shown == Some(ids[0])
  {
    ConfigureNewView(ids);
    FirstTick(ids);
    FirstDecode(ids);
    NextTicks(ids);
  }

  /** A restart while a decode run is under way does not restart decoding at
      frame 0. The run already read its index before the rewind: it decodes
      that frame, then advances the rewound cursor from 0 to 1 and queues
      itself again, so the next run reads frame 1 and frame 0 is skipped. */
  lemma RestartDuringRunSkipsFrameZero(s: State)
    requires Inv(s) && s.running.Some? && s.holding.None? && |s.drawn| > 0
    ensures var r := Start(s);
            && TakeEnabled(r)
            && var t := DecodeTake(r);
               && t.thrown.None?
               && Pixels(t.state, s.drawn[0]) == Some(s.ids.value[s.running.value])
               && PutEnabled(t.state)
               && var p := DecodePut(t.state);
                  && p.thrown.None?
                  && p.state.decoded == s.decoded + [s.drawn[0]]
                  && p.state.decoder == Some(Decoder(1, |s.ids.value|))
                  && p.state.decodePosts == s.decodePosts + 2
  {
    assert |s.decoded| < BUFFER_SIZE by {
      assert |Circulating(s)| == |s.decoded| + |s.drawn|;
    }
  }

  /** A live tick whose finish hook decides to stop leaves no tick queued and
      the draw handler null, and does not reschedule itself; after it, no
      tick runs until the surface is created again. */
  lemma StopEndsDrawLoop(s: State, effect: CanvasEffect, acts: seq<Action>)
    requires TickEnabled(s, effect) && s.alive && s.ids.Some?
    requires var d := OnFrameDraw(s.(drawPosts := s.drawPosts - 1), effect).state;
             IsFinish(d) && OnFinish(d.repeatTimes, d.repeatedCount).Stop?
    requires forall i :: 0 <= i < |acts| ==> acts[i] != Created
    ensures var t := DrawTick(s, effect);
            && Reschedule !in t.events && t.thrown.None?
            && !t.state.drawHandler && t.state.drawPosts == 0 && t.state.frameIndex == INITIAL_INDEX
            && (Execute(t.state, acts).Ran? ==> forall i :: 0 <= i < |acts| ==> !acts[i].Draw?)
  {
    var t := DrawTick(s, effect);
    assert !t.state.drawHandler && t.state.drawPosts == 0;
    HaltedStaysHalted(t.state, acts);
  }

  /** After the surface is destroyed, with the decode thread not mid-run, the
      view holds no bitmap. Configuring it again starts a proper run only if
      no decode run ever set a bitmap for reuse; otherwise both preloaded
      frames land in that one bitmap and the invariant fails. */
  lemma DestroyThenReconfigure(s: State, ids: seq<int>)
    requires s.running.None? && s.holding.None? && |ids| >= BUFFER_SIZE
    ensures Idle(SurfaceDestroyed(s))
    ensures CanPreload(SurfaceDestroyed(s), Some(ids))
    ensures s.reuse.None? ==> Inv(SetDrawableIds(SurfaceDestroyed(s), Some(ids)).state)
    ensures s.reuse.Some? ==>
      && Pool(SetDrawableIds(SurfaceDestroyed(s), Some(ids)).state) == multiset{s.reuse.value, s.reuse.value}
      && !Inv(SetDrawableIds(SurfaceDestroyed(s), Some(ids)).state)
  {
    if s.reuse.None? {
      PreloadEstablishes(SurfaceDestroyed(s), ids);
    } else {
      ReconfigureAliases(SurfaceDestroyed(s), ids);
    }
  }

  /** No bitmap circulates: both queues are empty and the decode thread
      holds nothing. */
  predicate NoBitmap(s: State) {
    s.decoded == [] && s.drawn == [] && s.holding.None?
  }

  /** Without a bitmap, a tick shows nothing. */
  lemma EmptyTickShowsNothing(s: State, effect: CanvasEffect)
    requires NoBitmap(s) && TickEnabled(s, effect)
    ensures DrawTick(s, effect).shown.None?
    ensures NoBitmap(DrawTick(s, effect).state)
  {
    if s.alive && s.ids.Some? {
      LiveTickBuffers(s, effect);
    }
  }

  /** Only configuring brings bitmaps back: every other action keeps a view
      without bitmaps without bitmaps. */
  lemma {:induction false} NoBitmapStays(s: State, acts: seq<Action>)
    requires NoBitmap(s)
    requires forall i :: 0 <= i < |acts| ==> !acts[i].Configure?
    ensures Execute(s, acts).Ran? ==> NoBitmap(Execute(s, acts).state)
    decreases |acts|
  {
    if |acts| > 0 && Enabled(s, acts[0]) {
      var st := Apply(s, acts[0]);
      if acts[0].Draw? {
        EmptyTickShowsNothing(s, acts[0].effect);
      }
      assert NoBitmap(st.state);
      NoBitmapStays(st.state, acts[1..]);
    }
  }

  /** Destroying the surface and creating it again, while the decode thread
      holds no bitmap (idle, or blocked in its take), leaves a started view
      started but without a single bitmap: every tick from then on shows
      nothing, and only configuring the view again brings frames back. */
  lemma RecreatedSurfaceShowsNothing(s: State, acts: seq<Action>)
    requires s.holding.None?
    requires forall i :: 0 <= i < |acts| ==> !acts[i].Configure?
    ensures var r := SurfaceCreated(SurfaceDestroyed(s));
            && r.alive && r.drawPosts == 1
            && (IsStart(s) ==> IsStart(r) && !TickEnabled(r, Drawn) && !TickEnabled(r, BlitThrows))
            && NoBitmap(r)
            && (Execute(r, acts).Ran? ==> NoBitmap(Execute(r, acts).state))
  {
    NoBitmapStays(SurfaceCreated(SurfaceDestroyed(s)), acts);
  }

  /** The frame duration in force after a sequence of actions: the last one
      the sequence sets, or `before` when it sets none. */
  function LastDuration(acts: seq<Action>, before: int): int
    decreases |acts|
  {
    if |acts| == 0 then before
    else LastDuration(acts[1..], if acts[0].FrameDuration? then acts[0].duration else before)
  }

  /** A tick never changes the frame duration. */
  lemma TickKeepsDuration(s: State, effect: CanvasEffect)
    requires TickEnabled(s, effect)
    ensures DrawTick(s, effect).state.duration == s.duration
  {
    if s.alive {
      var d := OnFrameDraw(s.(drawPosts := s.drawPosts - 1), effect).state;
      assert d.duration == s.duration;
    }
  }

  /** Only setting the frame duration changes it: after any sequence of
      actions the duration is the last one set, and from a new view that is
      the default of 200 until one is set. */
  lemma {:induction false} DurationIsLastSet(s: State, acts: seq<Action>)
    ensures Execute(s, acts).Ran? ==> Execute(s, acts).state.duration == LastDuration(acts, s.duration)
    decreases |acts|
  {
    if |acts| > 0 && Enabled(s, acts[0]) {
      var st := Apply(s, acts[0]);
      if acts[0].Draw? {
        TickKeepsDuration(s, acts[0].effect);
      }
      assert st.state.duration == (if acts[0].FrameDuration? then acts[0].duration else s.duration);
      DurationIsLastSet(st.state, acts[1..]);
    }
  }
}
